=== FILE: README.md ===
# VerticalTabLayout: the tab-strip and indicator state machine

This project models the core of `VerticalTabLayout`, an Android widget that shows a
vertical strip of selectable tabs with a moving indicator bar. The strip can optionally
be kept in step with a `ViewPager`. The view framework is stripped away. What remains is
a single class, `TabLayout.TabLayoutModel`, plus two modules of pure definitions:

- `TabRules` (tab_rules.dfy) covers the tab list. Each tab has a checked flag and layout
  params (height, weight, top margin). The module defines the rules of the two tab modes
  (`initTabWithMode`) and the selection invariant: in a non-empty strip exactly one tab
  is checked, and it is the selected one. It also describes the strip that results from
  adding tabs one by one, and the rewrites that `setTabMode`, `setTabMargin` and
  `setTabHeight` apply to every tab.
- `Indicator` (indicator.dfy) covers the indicator geometry. `calcIndicatorY` gives the
  position along the strip, and the top edge of each tab is defined independently of it.
  The gravity (LEFT, RIGHT, FILL) places the indicator across the strip in two steps: an
  immediate part, and a deferred part that runs after layout.
- `TabLayout` (tab_layout.dfy) holds the `TabLayoutModel` class. Its fields are those of
  `VerticalTabLayout` and its inner `TabStrip`. The methods mutate those fields as the
  Java setters do. The click handler and `setTabSelected` call each other, just as
  `performClick` re-enters the handler in the source. Listener calls are appended to an
  `events` sequence. Each runnable that `post` would defer is counted as pending, and
  `AfterLayout(stripWidth)` runs the pending ones once the strip's width is known.

Every state-changing method keeps `Valid()`. `Valid()` holds when the mode is fixed or
scrollable, the gravity is LEFT, RIGHT or FILL, the selection invariant holds, and every
tab carries the params its index and the current mode, height and margin call for.

Three behaviours of the code a reader might not expect:

- Switching from scrollable to fixed mode and back does restore the old margin and
  height. `mTabMargin` and `mTabHeight` are kept, and `initTabWithMode` reapplies them
  (`TabRules.ModeRoundTrip`).
- Tapping a tab that is not selected, while a listener that does not move a pager is
  set, produces three listener calls: `onTabSelected`, then `onTabSelected` again, then
  `onTabReselected`. The second and third come from the handler being re-entered through
  `performClick` (`TabLayout.ClickEvents`). The listener `setupWithViewPager` installs
  adds a fourth call (see "Left out").
- The TabStrip constructor already posts a gravity runnable. So `setIndicatorGravity(FILL)`
  called before the first layout leaves two runnables pending, and the layout pass runs
  both under FILL: the second overwrites the cached width with the strip width. A later
  LEFT or RIGHT then uses the whole strip width as the indicator width and the tabs'
  padding (`Indicator.FillBeforeFirstLayoutLosesWidth`).
- `setTabSelected` does not check its index. On an empty strip `getTabAt` returns null,
  which equals the null `mSelectedTab`, so every call is a silent no-op; the model keeps
  this case (`TabLayout.TabLayoutModel.SetTabSelected`). On a non-empty strip, an index
  past the end first unchecks the selected tab and then dereferences null; the model
  excludes that case by a precondition (see "Left out").

## Model

| member | source | states |
|---|---|---|
| `TabRules.ParamsFor` | verticaltablayout/src/main/java/q/rorbin/verticaltablayout/VerticalTabLayout.java:95-118 | fixed mode gives every tab height 0, weight 1, margin 0; scrollable mode gives height `mTabHeight`, weight 0, and top margin `mTabMargin` except 0 for the first tab |
| `TabRules.InitTabWithMode` | verticaltablayout/src/main/java/q/rorbin/verticaltablayout/VerticalTabLayout.java:108-118 | no ensures of its own: `ParamsFor` gives the params it produces for both modes, and `ModeParamsForgetOld` states that for a valid mode it overwrites every field of the old params |
| `TabRules.ModeParams` | verticaltablayout/src/main/java/q/rorbin/verticaltablayout/VerticalTabLayout.java:180-188 | re-applying the mode to a tab forces the first tab's top margin to 0 |
| `TabRules.ModeParamsForgetOld` | verticaltablayout/src/main/java/q/rorbin/verticaltablayout/VerticalTabLayout.java:108-118 | for either valid mode the result no longer depends on the tab's previous params |
| `TabRules.ExactlyOneChecked` | verticaltablayout/src/main/java/q/rorbin/verticaltablayout/VerticalTabLayout.java:157-168 | the selection invariant means exactly one checked tab in a non-empty strip and none in an empty one |
| `TabRules.CheckedOnceIsSelection` | verticaltablayout/src/main/java/q/rorbin/verticaltablayout/VerticalTabLayout.java:157-168 | conversely, a strip with exactly one checked tab satisfies the selection invariant for that tab |
| `TabRules.Reselect` | verticaltablayout/src/main/java/q/rorbin/verticaltablayout/VerticalTabLayout.java:160-161 | unchecking the old tab and checking the new one changes no tab's content or layout params |
| `TabRules.ReselectMovesCheck` | verticaltablayout/src/main/java/q/rorbin/verticaltablayout/VerticalTabLayout.java:157-164 | moving the selection keeps exactly one checked tab, the new one |
| `TabRules.ReselectSameIsIdentity` | verticaltablayout/src/main/java/q/rorbin/verticaltablayout/VerticalTabLayout.java:159 | selecting the tab that is already selected would leave the strip as it is |
| `TabRules.Appended` | verticaltablayout/src/main/java/q/rorbin/verticaltablayout/VerticalTabLayout.java:95-106 | adding a tab appends it with the mode's params for its index and keeps the earlier tabs; it is checked exactly when the strip was empty |
| `TabRules.AppendedKeepsInvariants` | verticaltablayout/src/main/java/q/rorbin/verticaltablayout/VerticalTabLayout.java:95-106 | adding a tab keeps the selection invariant and the layout invariant; the first tab becomes the selection |
| `TabRules.BuiltStrip` | verticaltablayout/src/main/java/q/rorbin/verticaltablayout/VerticalTabLayout.java:346-361 | adding n tabs to an empty strip gives n tabs in order, only the first checked and selected, all laid out for the mode |
| `TabRules.Built` | verticaltablayout/src/main/java/q/rorbin/verticaltablayout/VerticalTabLayout.java:95-106 | no ensures of its own: the strip that adding views one by one to an empty strip produces; `BuiltStrip` states its contents, selection and layout |
| `TabRules.PopulateSelection` | verticaltablayout/src/main/java/q/rorbin/verticaltablayout/VerticalTabLayout.java:363-369 | populating selects nothing for an empty adapter; otherwise the bound pager's current item when it names a tab, and the first tab when no pager is bound or its item is out of range |
| `TabRules.PopulatedStrip` | verticaltablayout/src/main/java/q/rorbin/verticaltablayout/VerticalTabLayout.java:346-369 | a rebuilt strip has one tab per page, exactly one selection consistent with the pager, and the mode's layout |
| `TabRules.Populated` | verticaltablayout/src/main/java/q/rorbin/verticaltablayout/VerticalTabLayout.java:346-369 | no ensures of its own: the built strip, moved to the pager's current item when `PopulateMoves`; `PopulatedStrip` states its contents, selection and layout |
| `TabRules.ModeRewrite` | verticaltablayout/src/main/java/q/rorbin/verticaltablayout/VerticalTabLayout.java:180-188 | the mode switch keeps every tab's content and checked flag and lays the strip out for the new mode |
| `TabRules.ModeRoundTrip` | verticaltablayout/src/main/java/q/rorbin/verticaltablayout/VerticalTabLayout.java:174-188 | leaving a mode and switching back restores a laid-out strip exactly, since margin and height are kept |
| `TabRules.MarginRewrite` | verticaltablayout/src/main/java/q/rorbin/verticaltablayout/VerticalTabLayout.java:207-212 | the margin rewrite changes only top margins |
| `TabRules.MarginRewriteRelays` | verticaltablayout/src/main/java/q/rorbin/verticaltablayout/VerticalTabLayout.java:203-212 | in scrollable mode the rewrite lays the strip out for the new margin |
| `TabRules.HeightRewrite` | verticaltablayout/src/main/java/q/rorbin/verticaltablayout/VerticalTabLayout.java:231-236 | the height rewrite changes only heights |
| `TabRules.HeightRewriteRelays` | verticaltablayout/src/main/java/q/rorbin/verticaltablayout/VerticalTabLayout.java:227-236 | in scrollable mode the rewrite lays the strip out for the new height |
| `TabRules.FixedIgnoresStoredValues` | verticaltablayout/src/main/java/q/rorbin/verticaltablayout/VerticalTabLayout.java:203-206 | in fixed mode the stored margin and height do not enter the layout, so storing new ones keeps the strip laid out |
| `Indicator.RestingPositionIsTabTop` | verticaltablayout/src/main/java/q/rorbin/verticaltablayout/VerticalTabLayout.java:444-448 | when every tab is measured as high as the first, `calcIndicatorY(i)` is the top edge of tab i in either mode |
| `Indicator.IndicatorOffset` | verticaltablayout/src/main/java/q/rorbin/verticaltablayout/VerticalTabLayout.java:444-448 | no ensures of its own: `RestingPositionIsTabTop` proves it equal to the top edge of the tab at an integer offset, and `DragInterpolates` proves it linear between two resting positions |
| `Indicator.DragInterpolates` | verticaltablayout/src/main/java/q/rorbin/verticaltablayout/VerticalTabLayout.java:506-509 | during a drag the indicator lies on the line through the resting positions of `position` and `position + 1`, for any fraction, unclamped |
| `Indicator.GravityPostsSettle` | verticaltablayout/src/main/java/q/rorbin/verticaltablayout/VerticalTabLayout.java:430-441 | pending gravity runnables settle to the right edge for RIGHT; for FILL the width becomes the strip width, and a second pending run overwrites the cached width |
| `Indicator.GravityImmediate` | verticaltablayout/src/main/java/q/rorbin/verticaltablayout/VerticalTabLayout.java:418-430 | no ensures of its own: `GravityThenLayout`, `FillRoundTrip` and `CachedWidthOverridesNewWidth` state its effect per gravity |
| `Indicator.GravityPost` | verticaltablayout/src/main/java/q/rorbin/verticaltablayout/VerticalTabLayout.java:431-440 | no ensures of its own: `GravityThenLayout` and `GravityPostsSettle` state what the deferred part leaves per gravity |
| `Indicator.GravityPosts` | verticaltablayout/src/main/java/q/rorbin/verticaltablayout/VerticalTabLayout.java:430-441 | no ensures of its own: `GravityPostsSettle` states what one or more pending runs leave |
| `Indicator.GravityThenLayout` | verticaltablayout/src/main/java/q/rorbin/verticaltablayout/VerticalTabLayout.java:418-442 | when only this call's gravity runnable is pending, after the gravity is set and one layout pass runs: LEFT gives X 0 and left padding equal to the width; RIGHT gives right padding equal to the width and X equal to the strip width minus the width; FILL gives X 0, no padding, the old width cached and the strip width used; LEFT and RIGHT first restore a non-zero cached width |
| `Indicator.FillRoundTrip` | verticaltablayout/src/main/java/q/rorbin/verticaltablayout/VerticalTabLayout.java:418-441 | when only this call's gravity runnable is pending, FILL followed by LEFT or RIGHT restores a non-zero width when none was cached before |
| `Indicator.FillBeforeFirstLayoutLosesWidth` | verticaltablayout/src/main/java/q/rorbin/verticaltablayout/VerticalTabLayout.java:418-441 | with two FILL runnables pending (the constructor's and this call's), the cached width becomes the strip width, and a following LEFT uses the strip width as indicator width and left padding |
| `Indicator.CachedWidthOverridesNewWidth` | verticaltablayout/src/main/java/q/rorbin/verticaltablayout/VerticalTabLayout.java:251-254 | once FILL has cached a width, a width set under LEFT or RIGHT is replaced by the cached one |
| `TabLayout.HandlerEvents` | verticaltablayout/src/main/java/q/rorbin/verticaltablayout/VerticalTabLayout.java:141-148 | with a listener, one run of the handler calls `onTabSelected` exactly once, first, and then `onTabReselected` exactly when the tab is already selected; without one it calls nothing |
| `TabLayout.ClickEvents` | verticaltablayout/src/main/java/q/rorbin/verticaltablayout/VerticalTabLayout.java:139-151 | without a listener a tap reports nothing; with one, tapping the selected tab yields exactly selected, reselected, and tapping another tab yields selected, selected, reselected because of the re-entry (for a listener that does not move a pager; see `OnTabClick` under "Left out") |
| `TabLayout.ScrollDelta` | verticaltablayout/src/main/java/q/rorbin/verticaltablayout/VerticalTabLayout.java:124-130 | no scroll is requested exactly when the tab's centre is at the viewport's centre; otherwise the requested scroll puts it there |
| `TabLayout.TabLayoutModel.SelectedTabPosition` | verticaltablayout/src/main/java/q/rorbin/verticaltablayout/VerticalTabLayout.java:379-383 | returns 0 on an empty strip; otherwise returns the index of the only checked tab |
| `TabLayout.TabLayoutModel.TabAt` | verticaltablayout/src/main/java/q/rorbin/verticaltablayout/VerticalTabLayout.java:91-93 | a child exists exactly for a position inside the strip, and it is the tab at that position |
| `TabLayout.TabLayoutModel.CalcIndicatorY` | verticaltablayout/src/main/java/q/rorbin/verticaltablayout/VerticalTabLayout.java:444-448 | no ensures of its own: `IndicatorOffset` under the current mode, margin and measured height; `UpdateIndicatorMargin` states that at the selected position it is that tab's top edge |
| `TabLayout.TabLayoutModel.constructor` | verticaltablayout/src/main/java/q/rorbin/verticaltablayout/VerticalTabLayout.java:57-70 | an empty strip built from the styled attributes, with gravity 0 read as LEFT, the gravity applied and its runnable pending |
| `TabLayout.TabLayoutModel.RemoveAllTabs` | verticaltablayout/src/main/java/q/rorbin/verticaltablayout/VerticalTabLayout.java:84-89 | on an empty strip, the only case where it returns, the selection is cleared |
| `TabLayout.TabLayoutModel.AddTab` | verticaltablayout/src/main/java/q/rorbin/verticaltablayout/VerticalTabLayout.java:136-155 | a null tab throws `IllegalStateException` and changes nothing; otherwise the tab is appended, and the first tab becomes the selection |
| `TabLayout.TabLayoutModel.AddTabWithMode` | verticaltablayout/src/main/java/q/rorbin/verticaltablayout/VerticalTabLayout.java:95-106 | appends the tab with the mode's params and keeps both invariants |
| `TabLayout.TabLayoutModel.OnTabClick` | verticaltablayout/src/main/java/q/rorbin/verticaltablayout/VerticalTabLayout.java:139-151 | the listener gets the click events, then `setTabSelected` runs; the tapped tab ends selected |
| `TabLayout.TabLayoutModel.SetTabSelected` | verticaltablayout/src/main/java/q/rorbin/verticaltablayout/VerticalTabLayout.java:157-168 | selecting the selected tab, or any position on an empty strip, changes nothing. Otherwise: the check moves; the indicator ends at `calcIndicatorY(p)` with no pager bound and stays put with one; the re-entered handler adds selected and reselected events; the tab is scrolled to |
| `TabLayout.TabLayoutModel.SetTabMode` | verticaltablayout/src/main/java/q/rorbin/verticaltablayout/VerticalTabLayout.java:174-196 | a mode other than 10 or 11 throws `IllegalStateException`; the current mode changes nothing; a new mode rewrites every tab and posts an indicator update |
| `TabLayout.TabLayoutModel.SetTabMargin` | verticaltablayout/src/main/java/q/rorbin/verticaltablayout/VerticalTabLayout.java:203-220 | an unchanged value does nothing; a new value is always stored but rewrites tabs only in scrollable mode |
| `TabLayout.TabLayoutModel.SetTabHeight` | verticaltablayout/src/main/java/q/rorbin/verticaltablayout/VerticalTabLayout.java:227-244 | an unchanged value does nothing; a new value is always stored but rewrites tabs only in scrollable mode |
| `TabLayout.TabLayoutModel.SetIndicatorWidth` | verticaltablayout/src/main/java/q/rorbin/verticaltablayout/VerticalTabLayout.java:251-254 | stores the width and re-applies the current gravity |
| `TabLayout.TabLayoutModel.SetIndicatorGravity` | verticaltablayout/src/main/java/q/rorbin/verticaltablayout/VerticalTabLayout.java:264-271 | only LEFT, RIGHT and FILL are accepted (others throw `IllegalStateException` and change nothing); an accepted gravity is stored and applied |
| `TabLayout.TabLayoutModel.ApplyIndicatorGravity` | verticaltablayout/src/main/java/q/rorbin/verticaltablayout/VerticalTabLayout.java:418-430 | applies the immediate part of the gravity and leaves one more gravity runnable pending |
| `TabLayout.TabLayoutModel.RunGravityPost` | verticaltablayout/src/main/java/q/rorbin/verticaltablayout/VerticalTabLayout.java:431-440 | the deferred part: RIGHT computes X from the strip width; FILL caches the width and takes the strip width |
| `TabLayout.TabLayoutModel.AfterLayout` | verticaltablayout/src/main/java/q/rorbin/verticaltablayout/VerticalTabLayout.java:190-195 | every pending runnable runs: the gravity ones in turn, and a pending indicator update puts the indicator at the selected tab's resting position |
| `TabLayout.TabLayoutModel.UpdateIndicatorMargin` | verticaltablayout/src/main/java/q/rorbin/verticaltablayout/VerticalTabLayout.java:411-415 | the indicator goes to `calcIndicatorY` of the selected position, which is that tab's top edge |
| `TabLayout.TabLayoutModel.OnMeasure` | verticaltablayout/src/main/java/q/rorbin/verticaltablayout/VerticalTabLayout.java:403-409 | a non-empty strip takes the first tab's measured height as the indicator height |
| `TabLayout.TabLayoutModel.MoveIndicator` | verticaltablayout/src/main/java/q/rorbin/verticaltablayout/VerticalTabLayout.java:450-453 | jumps to `calcIndicatorY(offset)` |
| `TabLayout.TabLayoutModel.MoveIndicatorToTab` | verticaltablayout/src/main/java/q/rorbin/verticaltablayout/VerticalTabLayout.java:455-473 | does nothing if already at the target; otherwise starts one animation that ends at `calcIndicatorY(index)` |
| `TabLayout.TabLayoutModel.SetOnTabSelectedListener` | verticaltablayout/src/main/java/q/rorbin/verticaltablayout/VerticalTabLayout.java:273-275 | sets or clears the listener |
| `TabLayout.TabLayoutModel.OnPageScrolled` | verticaltablayout/src/main/java/q/rorbin/verticaltablayout/VerticalTabLayout.java:506-509 | the indicator goes at once to `calcIndicatorY(position + offset)`, unclamped |
| `TabLayout.TabLayoutModel.OnPageSelected` | verticaltablayout/src/main/java/q/rorbin/verticaltablayout/VerticalTabLayout.java:512-515 | calls `setTabSelected` only when the page differs from the selected position; otherwise, and on an empty strip, nothing changes |
| `TabLayout.TabLayoutModel.PopulateFromPagerAdapter` | verticaltablayout/src/main/java/q/rorbin/verticaltablayout/VerticalTabLayout.java:346-373 | from an empty strip: no adapter leaves it empty; otherwise one tab per page, then the bound pager's current item is selected when it is another tab in range |
| `TabLayout.TabLayoutModel.AddPagerTabs` | verticaltablayout/src/main/java/q/rorbin/verticaltablayout/VerticalTabLayout.java:350-361 | the populate loop builds the strip that adding the pages one by one gives |
| `TabLayout.TabLayoutModel.SetupWithViewPager` | verticaltablayout/src/main/java/q/rorbin/verticaltablayout/VerticalTabLayout.java:291-327 | on any strip, a pager without an adapter throws `IllegalArgumentException` and leaves the tabs and the selection as they are; binding (from an empty strip) sets the pager and the listener and repopulates; unbinding (from an empty strip) clears both and leaves the strip empty; neither the exception nor unbinding touches the events, the indicator, the animations or the scroll requests |

## Left out

- Drawing (`onDraw`, `Paint`, `RectF`, the corner radius), the indicator colour and
  `setIndicatorColor`/`setIndicatorCorners`: rendering only.
- Animation timing: `moveIndicator(int)` posts a 200 ms `ValueAnimator`. The model
  keeps only its resting value, applied at once, plus a count of started animations.
  The intermediate frames and the delay of the post are not modelled. One consequence:
  after `setTabSelected(2)` with no pager bound and then `setTabMargin` with a new margin
  before the next layout, the posted animation starts first, `updataIndicatorMargin`
  then sets the indicator for the new margin, and the animator's frames overwrite it and
  end at the target computed under the old margin. The model ends at `calcIndicatorY`
  under the new margin instead. A second consequence: with no pager bound,
  `setTabSelected(2)` and then `setTabSelected(0)` in one turn. The second call compares
  its target with an `mIndicatorY` the first post has not animated yet, so it posts
  nothing; the first animation then leaves the indicator on tab 2 while tab 0 is checked.
  The model ends at `calcIndicatorY(0)`.
- Floating point: indicator offsets are exact `real`s, so the `==` test in
  `moveIndicator(int)` is exact equality; `dp2px` is not modelled.
- Attribute parsing with `TypedArray`: its results are the constructor's parameters.
  The tab mode is assumed to be 10 or 11, and the gravity to be 0, LEFT, RIGHT or FILL,
  as the attribute's enum allows.
- `smoothScrollBy` and the scroll geometry: `scrollTab` is recorded as the index in
  `scrollRequests`; its arithmetic is `TabLayout.ScrollDelta`.
- Listener and observer plumbing (`setPagerAdapter`, `PagerAdapterObserver`, the
  listener registration in `setupWithViewPager`): reduced to the `pagerBound` and
  `hasListener` flags.
- OnTabClick: with the listener `setupWithViewPager` installs, `onTabSelected` calls
  `setCurrentItem`, and the pager fires `onPageSelected` at once, which calls
  `setTabSelected` from inside the handler. This feedback is not modelled; the
  environment calls `OnPageSelected` separately. Consequence: in the source, a tap on
  another tab makes one extra `onTabReselected` call (four calls: selected, selected,
  reselected, reselected), because the selection has already moved when the outer
  handler checks it; the model records three.
- `QTabView` construction, badges, icons, titles, `setTabBadge` and `setTabAdapter`:
  per-tab display data is an opaque `TabView` handle.
- `removeAllTabs` on a non-empty strip: the loop removes tab 0 and then indexes −1,
  so it never returns normally. Every method that calls it requires an empty strip,
  so rebuilding is modelled only from an empty strip.
- `getTabCount`: a plain child accessor; the model reads `tabs`.
- AfterLayout: runs the pending gravity runnables in turn and then the pending
  indicator update. The gravity runnables and the indicator update touch disjoint
  fields, but the animation posted by `moveIndicator(int)` also writes `mIndicatorY`,
  and its interleaving with the indicator update is not modelled (see "Animation
  timing" above).
- SetTabSelected: an index past the end of a non-empty strip is excluded by a
  precondition (also for `OnTabClick` and `OnPageSelected`). The source unchecks the
  selected tab at line 160 and then dereferences null at line 161, leaving no tab checked.
  The empty strip, where every index is a no-op, is modelled. Positions are `nat`, so
  negative positions are left out too: `getTabAt(-1)` is null in the source, giving the
  same no-op on an empty strip and the same uncheck followed by a null dereference on a
  non-empty one.
- Java `int` overflow (in the gravity runnable's `getWidth() - mIndicatorWidth` and in
  `calcIndicatorY`'s `mIndicatorHeight + mTabMargin`) is not modelled: pixel sizes do
  not come near it.
- AddTab / Appended: view identity is not modelled (`TabView` is an opaque handle).
  Adding a view that is already in the strip throws from Android's `addView`, because
  the child already has a parent; the model appends a second tab with the same handle.
- AddTab / Appended: a tab view handed to `addTab` is assumed unchecked. Only the first
  tab's checked flag is set by the widget; an already-checked view added later would give
  two checked tabs, which the single-selection invariant rules out.

=== FILE: indicator.dfy ===
/** The indicator geometry of VerticalTabLayout's TabStrip: where the indicator rests
    along the strip, and how its gravity places it across the strip. */
module Indicator {
  import opened TabRules

  /** Android's Gravity.LEFT, Gravity.RIGHT and Gravity.FILL. */
  const GravityLeft: int := 3
  const GravityRight: int := 5
  const GravityFill: int := 0x77

  predicate ValidGravity(gravity: int)
  {
    gravity == GravityLeft || gravity == GravityRight || gravity == GravityFill
  }

  /** calcIndicatorY: a tab offset (fractional while a page is dragged) scaled by one tab
      slot, the measured tab height in fixed mode and height plus margin otherwise. */
  function IndicatorOffset(mode: int, indicatorHeight: int, tabMargin: int, offset: real): real
  {
    if mode == TabModeFixed then offset * indicatorHeight as real
    else offset * (indicatorHeight + tabMargin) as real
  }

  /** The top edge of tab `i` in the vertical strip when every tab is measured `height` high:
      each tab sits below the previous tab's bottom edge by its own top margin. */
  function TabTop(tabs: seq<Tab>, height: int, i: nat): int
    requires i < |tabs|
  {
    if i == 0 then tabs[0].params.topMargin
    else TabTop(tabs, height, i - 1) + height + tabs[i].params.topMargin
  }

  /** The resting position calcIndicatorY gives tab `i` is that tab's top edge, in either mode,
      provided every tab is measured as high as the first one. */
  lemma {:induction false} RestingPositionIsTabTop(tabs: seq<Tab>, mode: int, tabHeight: int, tabMargin: int,
                                                   measured: int, i: nat)
    requires ValidMode(mode) && LaidOut(tabs, mode, tabHeight, tabMargin) && i < |tabs|
    ensures IndicatorOffset(mode, measured, tabMargin, i as real) == TabTop(tabs, measured, i) as real
  {
    var slot := if mode == TabModeFixed then measured else measured + tabMargin;
    if i > 0 {
      RestingPositionIsTabTop(tabs, mode, tabHeight, tabMargin, measured, i - 1);
      assert tabs[i].params == ParamsFor(i, mode, tabHeight, tabMargin);
      assert measured + tabs[i].params.topMargin == slot;
      calc {
        IndicatorOffset(mode, measured, tabMargin, i as real);
        (i as real) * (slot as real);
        ((i - 1) as real) * (slot as real) + slot as real;
        IndicatorOffset(mode, measured, tabMargin, (i - 1) as real) + slot as real;
      }
    } else {
      assert tabs[0].params == ParamsFor(0, mode, tabHeight, tabMargin);
    }
  }

  /** While a page is dragged the indicator sits on the straight line between the resting
      positions of `position` and `position + 1`, for any fraction (nothing is clamped). */
  lemma DragInterpolates(mode: int, indicatorHeight: int, tabMargin: int, position: int, fraction: real)
    ensures var here := IndicatorOffset(mode, indicatorHeight, tabMargin, position as real);
            var next := IndicatorOffset(mode, indicatorHeight, tabMargin, (position + 1) as real);
            IndicatorOffset(mode, indicatorHeight, tabMargin, position as real + fraction) == here + fraction * (next - here)
  {
  }

  /** The cross-axis state of the indicator: mIndicatorX, mIndicatorWidth, mLastWidth and the
      strip's left and right padding. */
  datatype Cross = Cross(x: int, width: int, lastWidth: int, paddingLeft: int, paddingRight: int)

  /** The width LEFT and RIGHT restore: mLastWidth when it is non-zero. */
  function RestoredWidth(c: Cross): int
  {
    if c.lastWidth != 0 then c.lastWidth else c.width
  }

  /** TabStrip.setIndicatorGravity up to its post: LEFT pins the indicator to the left edge and
      pads the tabs by its width, RIGHT pads on the right, FILL clears both paddings. */
  function GravityImmediate(c: Cross, gravity: int): Cross
  {
    if gravity == GravityLeft then
      var w := RestoredWidth(c);
      c.(x := 0, width := w, paddingLeft := w, paddingRight := 0)
    else if gravity == GravityRight then
      var w := RestoredWidth(c);
      c.(width := w, paddingLeft := 0, paddingRight := w)
    else if gravity == GravityFill then
      c.(x := 0, paddingLeft := 0, paddingRight := 0)
    else
      c
  }

  /** The runnable setIndicatorGravity posts, run once the strip is `stripWidth` wide. */
  function GravityPost(c: Cross, gravity: int, stripWidth: int): Cross
  {
    if gravity == GravityRight then c.(x := stripWidth - c.width)
    else if gravity == GravityFill then c.(lastWidth := c.width, width := stripWidth)
    else c
  }

  /** `count` posted runnables, run in turn; each reads the gravity and width current when it runs. */
  function GravityPosts(c: Cross, gravity: int, stripWidth: int, count: nat): Cross
    decreases count
  {
    if count == 0 then c else GravityPosts(GravityPost(c, gravity, stripWidth), gravity, stripWidth, count - 1)
  }

  /** What pending gravity runnables leave behind. RIGHT and LEFT settle after one run; under FILL
      a second run overwrites the cached width with the strip width. */
  lemma {:induction false} GravityPostsSettle(c: Cross, gravity: int, stripWidth: int, count: nat)
    requires count > 0
    ensures GravityPosts(c, gravity, stripWidth, count) ==
      if gravity == GravityRight then c.(x := stripWidth - c.width)
      else if gravity == GravityFill then c.(lastWidth := if count == 1 then c.width else stripWidth, width := stripWidth)
      else c
    decreases count
  {
    if count > 1 {
      GravityPostsSettle(GravityPost(c, gravity, stripWidth), gravity, stripWidth, count - 1);
    }
  }

  /** setIndicatorGravity followed by one layout pass, per gravity. */
  lemma GravityThenLayout(c: Cross, gravity: int, stripWidth: int)
    requires ValidGravity(gravity)
    ensures var r := GravityPosts(GravityImmediate(c, gravity), gravity, stripWidth, 1);
      (gravity == GravityLeft ==>
        r.x == 0 && r.width == RestoredWidth(c) && r.paddingLeft == r.width && r.paddingRight == 0) &&
      (gravity == GravityRight ==>
        r.width == RestoredWidth(c) && r.paddingLeft == 0 && r.paddingRight == r.width &&
        r.x == stripWidth - r.width) &&
      (gravity == GravityFill ==>
        r.x == 0 && r.paddingLeft == 0 && r.paddingRight == 0 &&
        r.lastWidth == c.width && r.width == stripWidth)
  {
  }

  /** Going to FILL and back to LEFT or RIGHT restores the configured non-zero width, when no
      width had been cached before. */
  lemma FillRoundTrip(c: Cross, back: int, stripWidth: int)
    requires c.lastWidth == 0 && c.width != 0
    requires back == GravityLeft || back == GravityRight
    ensures var filled := GravityPosts(GravityImmediate(c, GravityFill), GravityFill, stripWidth, 1);
            GravityImmediate(filled, back).width == c.width
  {
  }

  /** FILL set before the first layout: the constructor's runnable and this call's runnable both
      run under FILL, so the second caches the strip width, and a later LEFT pads the tabs by the
      whole strip width instead of the configured indicator width. */
  lemma FillBeforeFirstLayoutLosesWidth(c: Cross, stripWidth: int)
    ensures var filled := GravityPosts(GravityImmediate(c, GravityFill), GravityFill, stripWidth, 2);
            var left := GravityImmediate(filled, GravityLeft);
            filled.lastWidth == stripWidth && left.width == stripWidth && left.paddingLeft == stripWidth
  {
    GravityPostsSettle(GravityImmediate(c, GravityFill), GravityFill, stripWidth, 2);
  }

  /** Once a width has been cached by FILL, a width set under LEFT or RIGHT (setIndicatorWidth)
      is replaced by the cached one: mLastWidth is never cleared. */
  lemma CachedWidthOverridesNewWidth(c: Cross, width: int, gravity: int)
    requires c.lastWidth != 0
    requires gravity == GravityLeft || gravity == GravityRight
    ensures GravityImmediate(c.(width := width), gravity).width == c.lastWidth
  {
  }
}

=== FILE: tab_layout.dfy ===
/** VerticalTabLayout as a state machine: the tab strip, the selection, the layout-mode
    setters, the indicator geometry and the reduced pager synchronisation. */
module TabLayout {
  import opened TabRules
  import opened Indicator

  /** How a public operation ends: normally, or with the exception the widget throws. */
  datatype Outcome = Done | IllegalStateException(message: string) | IllegalArgumentException(message: string)

  /** What the bound ViewPager supplies: its adapter's tab contents (none when it has no
      adapter) and its current item. */
  datatype Pager = Pager(adapter: Option<seq<TabView>>, currentItem: nat)

  /** The listener calls one run of the click handler makes for the tab at `position`:
      onTabSelected, then onTabReselected when the tab is already the selected one. */
  function HandlerEvents(listener: bool, position: nat, isSelected: bool): (r: seq<Event>)
    ensures !listener <==> r == []
    ensures |r| == (if listener then (if isSelected then 2 else 1) else 0)
    ensures listener ==> |r| > 0 && r[0] == TabSelected(position)
    ensures TabReselected(position) in r <==> listener && isSelected
    ensures forall e | e in r :: e.position == position
  {
    if !listener then []
    else [TabSelected(position)] + (if isSelected then [TabReselected(position)] else [])
  }

  /** A tap on tab `position`: the handler's own calls, then, when the tap moves the selection,
      those of the handler re-entered by setTabSelected's performClick. */
  function ClickEvents(listener: bool, position: nat, wasSelected: bool): (r: seq<Event>)
    ensures listener ==> |r| > 0 && r[0] == TabSelected(position)
    ensures TabReselected(position) in r <==> listener
    ensures !wasSelected && listener ==> r == [TabSelected(position), TabSelected(position), TabReselected(position)]
    ensures wasSelected && listener ==> r == [TabSelected(position), TabReselected(position)]
    ensures !listener ==> r == []
  {
    HandlerEvents(listener, position, wasSelected) +
    (if wasSelected then [] else HandlerEvents(listener, position, true))
  }

  /** The scroll scrollTab's posted runnable requests: the distance from the centre of the
      tab (top `top`, height `height`, both in strip coordinates) to the centre of the
      `viewHeight`-high viewport scrolled to `scrollY`; none when they already coincide. */
  function ScrollDelta(top: int, height: nat, scrollY: int, viewHeight: nat): (r: Option<int>)
    ensures r.None? <==> top + height / 2 - scrollY == viewHeight / 2
    ensures r.Some? ==> r.value != 0 && top + height / 2 - (scrollY + r.value) == viewHeight / 2
  {
    var tabTop := top + height / 2 - scrollY;
    var target := viewHeight / 2;
    if tabTop > target then Some(tabTop - target)
    else if tabTop < target then Some(tabTop - target)
    else None
  }

  class TabLayoutModel {
    // VerticalTabLayout
    var tabs: seq<Tab>              // the children of the tab strip
    var selected: Option<nat>       // mSelectedTab, as its index in the strip
    var tabMode: int
    var tabMargin: int
    var tabHeight: int
    var hasListener: bool           // mTabSelectedListener != null
    var events: seq<Event>          // calls received by the listener so far
    var pagerBound: bool            // mViewPager != null
    var scrollRequests: seq<nat>    // tabs handed to scrollTab, in order
    // TabStrip
    var indicatorY: real
    var indicatorX: int
    var indicatorWidth: int
    var lastWidth: int
    var indicatorHeight: int
    var indicatorGravity: int
    var paddingLeft: int
    var paddingRight: int
    var animationsStarted: nat      // indicator animations moveIndicator(int) has started
    // runnables posted to the strip and not yet run
    var pendingGravityPosts: nat    // from setIndicatorGravity
    var pendingMarginPost: bool     // updataIndicatorMargin, from setTabMode/Margin/Height

    ghost predicate Valid()
      reads this
    {
      ValidMode(tabMode) && ValidGravity(indicatorGravity) &&
      SingleChecked(tabs, selected) &&
      LaidOut(tabs, tabMode, tabHeight, tabMargin)
    }

    function CrossState(): Cross
      reads this
    {
      Cross(indicatorX, indicatorWidth, lastWidth, paddingLeft, paddingRight)
    }

    /** calcIndicatorY under the current mode, margin and measured tab height. */
    function CalcIndicatorY(offset: real): real
      reads this
    {
      IndicatorOffset(tabMode, indicatorHeight, tabMargin, offset)
    }

    /** getSelectedTabPosition: the selected tab's index, 0 when there is none. */
    function SelectedTabPosition(): (r: nat)
      reads this
      ensures Valid() && tabs == [] ==> r == 0
      ensures Valid() && tabs != [] ==>
        r < |tabs| && tabs[r].checked && forall i | 0 <= i < |tabs| && i != r :: !tabs[i].checked
    {
      if selected.Some? then selected.value else 0
    }

    /** The widget after inflation: the styled attributes are the parameters, the strip is
        empty, and the TabStrip constructor has applied the gravity (0 meaning LEFT). */
    constructor (tabMode: int, tabMargin: int, tabHeight: int, indicatorWidth: int, indicatorGravity: int)
      requires ValidMode(tabMode)
      requires indicatorGravity == 0 || ValidGravity(indicatorGravity)
      ensures Valid()
      ensures tabs == [] && selected == None && events == [] && scrollRequests == []
      ensures !hasListener && !pagerBound
      ensures this.tabMode == tabMode && this.tabMargin == tabMargin && this.tabHeight == tabHeight
      ensures this.indicatorGravity == if indicatorGravity == 0 then GravityLeft else indicatorGravity
      ensures CrossState() == GravityImmediate(Cross(0, indicatorWidth, 0, 0, 0), this.indicatorGravity)
      ensures indicatorY == 0.0 && indicatorHeight == 0 && animationsStarted == 0
      ensures pendingGravityPosts == 1 && !pendingMarginPost
    {
      this.tabs := [];
      this.selected := None;
      this.tabMode := tabMode;
      this.tabMargin := tabMargin;
      this.tabHeight := tabHeight;
      this.hasListener := false;
      this.events := [];
      this.pagerBound := false;
      this.scrollRequests := [];
      this.indicatorY := 0.0;
      this.indicatorHeight := 0;
      this.animationsStarted := 0;
      this.pendingMarginPost := false;
      var g := if indicatorGravity == 0 then GravityLeft else indicatorGravity;
      this.indicatorGravity := g;
      var c := GravityImmediate(Cross(0, indicatorWidth, 0, 0, 0), g);
      this.indicatorX := c.x;
      this.indicatorWidth := c.width;
      this.lastWidth := c.lastWidth;
      this.paddingLeft := c.paddingLeft;
      this.paddingRight := c.paddingRight;
      this.pendingGravityPosts := 1;
    }

    /** removeAllTabs. Its loop counts down from 0, so it only returns on an empty strip. */
    method RemoveAllTabs()
      requires Valid() && tabs == []
      modifies this`selected
      ensures Valid() && selected == None
    {
      selected := None;
    }

    /** addTab: a missing tab view is refused; otherwise addTabWithMode. */
    method AddTab(tabView: Option<TabView>) returns (outcome: Outcome)
      requires Valid()
      modifies this`tabs, this`selected
      ensures Valid()
      ensures tabView.None? ==>
        outcome == IllegalStateException("tabview can't be null") && tabs == old(tabs) && selected == old(selected)
      ensures tabView.Some? ==>
        outcome == Done &&
        tabs == Appended(old(tabs), tabView.value, tabMode, tabHeight, tabMargin) &&
        selected == if old(tabs) == [] then Some(0) else old(selected)
    {
      if tabView.None? {
        return IllegalStateException("tabview can't be null");
      }
      AddTabWithMode(tabView.value);
      outcome := Done;
    }

    /** addTabWithMode: append the tab with the mode's params; the first tab of the strip is
        checked, gets top margin 0 and becomes the selected tab. */
    method AddTabWithMode(view: TabView)
      requires Valid()
      modifies this`tabs, this`selected
      ensures Valid()
      ensures tabs == Appended(old(tabs), view, tabMode, tabHeight, tabMargin)
      ensures selected == if old(tabs) == [] then Some(0) else old(selected)
    {
      var params := InitTabWithMode(FreshParams, tabMode, tabHeight, tabMargin);
      tabs := tabs + [Tab(view, false, params)];
      if |tabs| - 1 == 0 {
        tabs := tabs[0 := tabs[0].(checked := true, params := params.(topMargin := 0))];
        selected := Some(0);
      }
      AppendedKeepsInvariants(old(tabs), old(selected), view, tabMode, tabHeight, tabMargin);
    }

    /** The click handler addTab installs on every tab view. */
    method OnTabClick(position: nat)
      requires Valid() && position < |tabs|
      modifies this`tabs, this`selected, this`events, this`indicatorY, this`animationsStarted, this`scrollRequests
      decreases if selected == Some(position) then 0 else 1, 1
      ensures Valid() && selected == Some(position)
      ensures events == old(events) + ClickEvents(hasListener, position, old(selected) == Some(position))
      ensures old(selected) == Some(position) ==>
        tabs == old(tabs) && indicatorY == old(indicatorY) &&
        animationsStarted == old(animationsStarted) && scrollRequests == old(scrollRequests)
      ensures old(selected) != Some(position) ==>
        tabs == Reselect(old(tabs), old(selected).value, position) &&
        indicatorY == (if pagerBound then old(indicatorY) else CalcIndicatorY(position as real)) &&
        animationsStarted == old(animationsStarted) +
          (if !pagerBound && old(indicatorY) != CalcIndicatorY(position as real) then 1 else 0) &&
        scrollRequests == old(scrollRequests) + [position]
    {
      if hasListener {
        events := events + [TabSelected(position)];
        if selected == Some(position) {
          events := events + [TabReselected(position)];
        }
      }
      SetTabSelected(position);
    }

    /** getTabAt: the child at `position`, none past the end of the strip. */
    function TabAt(position: nat): (r: Option<nat>)
      reads this
      ensures r.Some? <==> position < |tabs|
      ensures r.Some? ==> r.value == position
    {
      if position < |tabs| then Some(position) else None
    }

    /** setTabSelected: move the check mark and the selection to `position`, move the indicator
        unless a pager drives it, re-run the click handler (performClick) and scroll the tab
        into view. Selecting the selected tab does nothing, and neither does any position on an
        empty strip, where getTabAt's null equals the null selection. */
    method SetTabSelected(position: nat)
      requires Valid() && (tabs == [] || position < |tabs|)
      modifies this`tabs, this`selected, this`events, this`indicatorY, this`animationsStarted, this`scrollRequests
      decreases if selected == Some(position) then 0 else 1, 0
      ensures Valid() && selected == if old(tabs) == [] then None else Some(position)
      ensures old(selected) == Some(position) || old(tabs) == [] ==>
        tabs == old(tabs) && events == old(events) && indicatorY == old(indicatorY) &&
        animationsStarted == old(animationsStarted) && scrollRequests == old(scrollRequests)
      ensures old(selected) != Some(position) && old(tabs) != [] ==>
        tabs == Reselect(old(tabs), old(selected).value, position) &&
        events == old(events) + HandlerEvents(hasListener, position, true) &&
        indicatorY == (if pagerBound then old(indicatorY) else CalcIndicatorY(position as real)) &&
        animationsStarted == old(animationsStarted) +
          (if !pagerBound && old(indicatorY) != CalcIndicatorY(position as real) then 1 else 0) &&
        scrollRequests == old(scrollRequests) + [position]
    {
      var view := TabAt(position);
      if view != selected {
        var previous := selected.value;
        tabs := tabs[previous := tabs[previous].(checked := false)];
        tabs := tabs[position := tabs[position].(checked := true)];
        if !pagerBound {
          MoveIndicatorToTab(position);
        }
        selected := Some(position);
        ReselectMovesCheck(old(tabs), previous, position);
        OnTabClick(position);
        scrollRequests := scrollRequests + [position];
      }
    }

    /** setTabMode: only the two tab modes are accepted; a new mode re-lays every tab out and
        posts an indicator update. */
    method SetTabMode(mode: int) returns (outcome: Outcome)
      requires Valid()
      modifies this`tabMode, this`tabs, this`pendingMarginPost
      ensures Valid()
      ensures outcome == if ValidMode(mode) then Done
                         else IllegalStateException("only support TAB_MODE_FIXED or TAB_MODE_SCROLLABLE")
      ensures !ValidMode(mode) || mode == old(tabMode) ==>
        tabMode == old(tabMode) && tabs == old(tabs) && pendingMarginPost == old(pendingMarginPost)
      ensures ValidMode(mode) && mode != old(tabMode) ==>
        tabMode == mode && tabs == ModeRewrite(old(tabs), mode, tabHeight, tabMargin) && pendingMarginPost
    {
      if mode != TabModeFixed && mode != TabModeScrollable {
        return IllegalStateException("only support TAB_MODE_FIXED or TAB_MODE_SCROLLABLE");
      }
      outcome := Done;
      if mode == tabMode {
        return;
      }
      tabMode := mode;
      var i := 0;
      while i < |tabs|
        modifies this`tabs
        invariant 0 <= i <= |tabs| == |old(tabs)|
        invariant forall j | 0 <= j < i ::
          tabs[j] == old(tabs)[j].(params := ModeParams(old(tabs)[j].params, j, mode, tabHeight, tabMargin))
        invariant forall j | i <= j < |tabs| :: tabs[j] == old(tabs)[j]
      {
        var params := InitTabWithMode(tabs[i].params, tabMode, tabHeight, tabMargin);
        if i == 0 {
          params := params.(topMargin := 0);
        }
        tabs := tabs[i := tabs[i].(params := params)];
        i := i + 1;
      }
      assert tabs == ModeRewrite(old(tabs), mode, tabHeight, tabMargin);
      SameChecksKeepSelection(old(tabs), tabs, selected);
      pendingMarginPost := true;
    }

    /** setTabMargin: the value is always stored; tabs are re-laid out only in scrollable mode. */
    method SetTabMargin(margin: int)
      requires Valid()
      modifies this`tabMargin, this`tabs, this`pendingMarginPost
      ensures Valid() && tabMargin == margin
      ensures margin == old(tabMargin) || tabMode == TabModeFixed ==>
        tabs == old(tabs) && pendingMarginPost == old(pendingMarginPost)
      ensures margin != old(tabMargin) && tabMode != TabModeFixed ==>
        tabs == MarginRewrite(old(tabs), margin) && pendingMarginPost
    {
      if margin == tabMargin {
        return;
      }
      tabMargin := margin;
      if tabMode == TabModeFixed {
        FixedIgnoresStoredValues(tabs, tabHeight, old(tabMargin), tabHeight, margin);
        return;
      }
      var i := 0;
      while i < |tabs|
        modifies this`tabs
        invariant 0 <= i <= |tabs| == |old(tabs)|
        invariant forall j | 0 <= j < i ::
          tabs[j] == old(tabs)[j].(params := old(tabs)[j].params.(topMargin := if j == 0 then 0 else margin))
        invariant forall j | i <= j < |tabs| :: tabs[j] == old(tabs)[j]
      {
        tabs := tabs[i := tabs[i].(params := tabs[i].params.(topMargin := if i == 0 then 0 else tabMargin))];
        i := i + 1;
      }
      assert tabs == MarginRewrite(old(tabs), margin);
      MarginRewriteRelays(old(tabs), tabHeight, old(tabMargin), margin);
      SameChecksKeepSelection(old(tabs), tabs, selected);
      pendingMarginPost := true;
    }

    /** setTabHeight: the value is always stored; tabs are re-laid out only in scrollable mode. */
    method SetTabHeight(height: int)
      requires Valid()
      modifies this`tabHeight, this`tabs, this`pendingMarginPost
      ensures Valid() && tabHeight == height
      ensures height == old(tabHeight) || tabMode == TabModeFixed ==>
        tabs == old(tabs) && pendingMarginPost == old(pendingMarginPost)
      ensures height != old(tabHeight) && tabMode != TabModeFixed ==>
        tabs == HeightRewrite(old(tabs), height) && pendingMarginPost
    {
      if height == tabHeight {
        return;
      }
      tabHeight := height;
      if tabMode == TabModeFixed {
        FixedIgnoresStoredValues(tabs, old(tabHeight), tabMargin, height, tabMargin);
        return;
      }
      var i := 0;
      while i < |tabs|
        modifies this`tabs
        invariant 0 <= i <= |tabs| == |old(tabs)|
        invariant forall j | 0 <= j < i :: tabs[j] == old(tabs)[j].(params := old(tabs)[j].params.(height := height))
        invariant forall j | i <= j < |tabs| :: tabs[j] == old(tabs)[j]
      {
        tabs := tabs[i := tabs[i].(params := tabs[i].params.(height := tabHeight))];
        i := i + 1;
      }
      assert tabs == HeightRewrite(old(tabs), height);
      HeightRewriteRelays(old(tabs), old(tabHeight), height, tabMargin);
      SameChecksKeepSelection(old(tabs), tabs, selected);
      pendingMarginPost := true;
    }

    /** setIndicatorWidth: store the width, then re-apply the gravity. */
    method SetIndicatorWidth(width: int)
      requires Valid()
      modifies this`indicatorX, this`indicatorWidth, this`lastWidth, this`paddingLeft, this`paddingRight,
               this`pendingGravityPosts
      ensures Valid()
      ensures CrossState() == GravityImmediate(old(CrossState()).(width := width), indicatorGravity)
      ensures pendingGravityPosts == old(pendingGravityPosts) + 1
    {
      indicatorWidth := width;
      ApplyIndicatorGravity();
    }

    /** setIndicatorGravity: only LEFT, RIGHT and FILL are accepted. */
    method SetIndicatorGravity(gravity: int) returns (outcome: Outcome)
      requires Valid()
      modifies this`indicatorGravity, this`indicatorX, this`indicatorWidth, this`lastWidth,
               this`paddingLeft, this`paddingRight, this`pendingGravityPosts
      ensures Valid()
      ensures !ValidGravity(gravity) ==>
        outcome == IllegalStateException("only support Gravity.LEFT,Gravity.RIGHT,Gravity.FILL") &&
        indicatorGravity == old(indicatorGravity) && CrossState() == old(CrossState()) &&
        pendingGravityPosts == old(pendingGravityPosts)
      ensures ValidGravity(gravity) ==>
        outcome == Done && indicatorGravity == gravity &&
        CrossState() == GravityImmediate(old(CrossState()), gravity) &&
        pendingGravityPosts == old(pendingGravityPosts) + 1
    {
      if gravity == GravityLeft || gravity == GravityRight || GravityFill == gravity {
        indicatorGravity := gravity;
        ApplyIndicatorGravity();
        outcome := Done;
      } else {
        outcome := IllegalStateException("only support Gravity.LEFT,Gravity.RIGHT,Gravity.FILL");
      }
    }

    /** TabStrip.setIndicatorGravity: place the indicator for the current gravity and post
        the part that needs the strip's width. */
    method ApplyIndicatorGravity()
      requires Valid()
      modifies this`indicatorX, this`indicatorWidth, this`paddingLeft, this`paddingRight, this`pendingGravityPosts
      ensures Valid()
      ensures CrossState() == GravityImmediate(old(CrossState()), indicatorGravity)
      ensures pendingGravityPosts == old(pendingGravityPosts) + 1
    {
      if indicatorGravity == GravityLeft {
        indicatorX := 0;
        if lastWidth != 0 {
          indicatorWidth := lastWidth;
        }
        paddingLeft, paddingRight := indicatorWidth, 0;
      } else if indicatorGravity == GravityRight {
        if lastWidth != 0 {
          indicatorWidth := lastWidth;
        }
        paddingLeft, paddingRight := 0, indicatorWidth;
      } else if indicatorGravity == GravityFill {
        indicatorX := 0;
        paddingLeft, paddingRight := 0, 0;
      }
      pendingGravityPosts := pendingGravityPosts + 1;
    }

    /** The runnable TabStrip.setIndicatorGravity posts, run on a strip `stripWidth` wide. */
    method RunGravityPost(stripWidth: int)
      modifies this`indicatorX, this`indicatorWidth, this`lastWidth
      ensures CrossState() == GravityPost(old(CrossState()), indicatorGravity, stripWidth)
    {
      if indicatorGravity == GravityRight {
        indicatorX := stripWidth - indicatorWidth;
      } else if indicatorGravity == GravityFill {
        lastWidth := indicatorWidth;
        indicatorWidth := stripWidth;
      }
    }

    /** A layout pass has given the strip its width: the runnables posted to the strip run in
        turn (the gravity ones and at most one effective indicator update). */
    method AfterLayout(stripWidth: int)
      requires Valid()
      modifies this`indicatorX, this`indicatorWidth, this`lastWidth, this`indicatorY,
               this`pendingGravityPosts, this`pendingMarginPost
      ensures Valid()
      ensures CrossState() == GravityPosts(old(CrossState()), indicatorGravity, stripWidth, old(pendingGravityPosts))
      ensures indicatorY == if old(pendingMarginPost) then CalcIndicatorY(SelectedTabPosition() as real)
                            else old(indicatorY)
      ensures pendingGravityPosts == 0 && !pendingMarginPost
    {
      while pendingGravityPosts > 0
        modifies this`indicatorX, this`indicatorWidth, this`lastWidth, this`pendingGravityPosts
        invariant GravityPosts(CrossState(), indicatorGravity, stripWidth, pendingGravityPosts) ==
                  GravityPosts(old(CrossState()), indicatorGravity, stripWidth, old(pendingGravityPosts))
        decreases pendingGravityPosts
      {
        RunGravityPost(stripWidth);
        pendingGravityPosts := pendingGravityPosts - 1;
      }
      if pendingMarginPost {
        UpdateIndicatorMargin();
        pendingMarginPost := false;
      }
    }

    /** updataIndicatorMargin: put the indicator at the selected tab's resting position. */
    method UpdateIndicatorMargin()
      requires Valid()
      modifies this`indicatorY
      ensures indicatorY == CalcIndicatorY(SelectedTabPosition() as real)
      ensures tabs != [] ==> indicatorY == TabTop(tabs, indicatorHeight, SelectedTabPosition()) as real
    {
      var index := SelectedTabPosition();
      indicatorY := CalcIndicatorY(index as real);
      if tabs != [] {
        RestingPositionIsTabTop(tabs, tabMode, tabHeight, tabMargin, indicatorHeight, index);
      }
    }

    /** TabStrip.onMeasure: the indicator takes the measured height of the first tab. */
    method OnMeasure(firstChildHeight: nat)
      modifies this`indicatorHeight
      ensures indicatorHeight == if tabs != [] then firstChildHeight else old(indicatorHeight)
    {
      if |tabs| > 0 {
        indicatorHeight := firstChildHeight;
      }
    }

    /** moveIndicator(float): jump to the offset at once. */
    method MoveIndicator(offset: real)
      modifies this`indicatorY
      ensures indicatorY == CalcIndicatorY(offset)
    {
      indicatorY := CalcIndicatorY(offset);
    }

    /** moveIndicator(int): animate to the tab's resting position unless already there;
        only the resting value of the animation is kept. */
    method MoveIndicatorToTab(index: int)
      modifies this`indicatorY, this`animationsStarted
      ensures indicatorY == CalcIndicatorY(index as real)
      ensures animationsStarted == old(animationsStarted) + if old(indicatorY) == CalcIndicatorY(index as real) then 0 else 1
    {
      var target := CalcIndicatorY(index as real);
      if indicatorY == target {
        return;
      }
      indicatorY := target;
      animationsStarted := animationsStarted + 1;
    }

    method SetOnTabSelectedListener(present: bool)
      modifies this`hasListener
      ensures hasListener == present
    {
      hasListener := present;
    }

    /** OnTabPageChangeListener.onPageScrolled: track the drag, fraction included, unclamped. */
    method OnPageScrolled(position: int, positionOffset: real)
      modifies this`indicatorY
      ensures indicatorY == CalcIndicatorY(positionOffset + position as real)
    {
      MoveIndicator(positionOffset + position as real);
    }

    /** OnTabPageChangeListener.onPageSelected: select the settled page's tab unless it already is. */
    method OnPageSelected(position: nat)
      requires Valid() && (position == SelectedTabPosition() || position < |tabs| || tabs == [])
      modifies this`tabs, this`selected, this`events, this`indicatorY, this`animationsStarted, this`scrollRequests
      ensures Valid()
      ensures position == old(SelectedTabPosition()) || old(tabs) == [] ==>
        tabs == old(tabs) && selected == old(selected) && events == old(events) && indicatorY == old(indicatorY) &&
        animationsStarted == old(animationsStarted) && scrollRequests == old(scrollRequests)
      ensures position != old(SelectedTabPosition()) && old(tabs) != [] ==>
        selected == Some(position) &&
        tabs == Reselect(old(tabs), old(selected).value, position) &&
        events == old(events) + HandlerEvents(hasListener, position, true) &&
        indicatorY == (if pagerBound then old(indicatorY) else CalcIndicatorY(position as real)) &&
        animationsStarted == old(animationsStarted) +
          (if !pagerBound && old(indicatorY) != CalcIndicatorY(position as real) then 1 else 0) &&
        scrollRequests == old(scrollRequests) + [position]
    {
      if position != SelectedTabPosition() {
        SetTabSelected(position);
      }
    }

    /** populateFromPagerAdapter, from an empty strip: one tab per adapter page, then the bound
        pager's current item is selected when it is another existing tab. */
    method PopulateFromPagerAdapter(adapter: Option<seq<TabView>>, currentItem: nat)
      requires Valid() && tabs == []
      modifies this`tabs, this`selected, this`events, this`indicatorY, this`animationsStarted, this`scrollRequests
      ensures Valid()
      ensures adapter.None? ==>
        tabs == [] && selected == None && events == old(events) && indicatorY == old(indicatorY) &&
        animationsStarted == old(animationsStarted) && scrollRequests == old(scrollRequests)
      ensures adapter.Some? ==>
        tabs == Populated(adapter.value, tabMode, tabHeight, tabMargin, pagerBound, currentItem) &&
        selected == PopulateSelection(|adapter.value|, pagerBound, currentItem) &&
        indicatorY == old(indicatorY) && animationsStarted == old(animationsStarted)
      ensures adapter.Some? && PopulateMoves(|adapter.value|, pagerBound, currentItem) ==>
        events == old(events) + HandlerEvents(hasListener, currentItem, true) &&
        scrollRequests == old(scrollRequests) + [currentItem]
      ensures adapter.Some? && !PopulateMoves(|adapter.value|, pagerBound, currentItem) ==>
        events == old(events) && scrollRequests == old(scrollRequests)
    {
      RemoveAllTabs();
      if adapter.None? {
        RemoveAllTabs();
        return;
      }
      var views := adapter.value;
      AddPagerTabs(views);
      BuiltStrip(views, tabMode, tabHeight, tabMargin);
      ghost var built := tabs;
      if pagerBound && |views| > 0 {
        if currentItem != SelectedTabPosition() && currentItem < |tabs| {
          SetTabSelected(currentItem);
          assert tabs == Reselect(built, 0, currentItem);
        }
      }
    }

    /** The loop of populateFromPagerAdapter: one tab per adapter page, in order. */
    method AddPagerTabs(views: seq<TabView>)
      requires Valid() && tabs == []
      modifies this`tabs, this`selected
      ensures Valid()
      ensures tabs == Built(views, tabMode, tabHeight, tabMargin)
      ensures selected == if views == [] then None else Some(0)
    {
      var i := 0;
      while i < |views|
        invariant 0 <= i <= |views|
        invariant Valid()
        invariant tabs == Built(views[..i], tabMode, tabHeight, tabMargin)
        invariant selected == if i == 0 then None else Some(0)
      {
        assert views[..i + 1][..i] == views[..i];
        var _ := AddTab(Some(views[i]));
        i := i + 1;
      }
      assert views[..i] == views;
    }

    /** setupWithViewPager reduced to the bound flag and the listener flag: binding needs a pager
        with an adapter and repopulates from it; unbinding clears both and empties the strip. */
    method SetupWithViewPager(pager: Option<Pager>) returns (outcome: Outcome)
      requires Valid() && (tabs == [] || (pager.Some? && pager.value.adapter.None?))
      modifies this`pagerBound, this`hasListener,
               this`tabs, this`selected, this`events, this`indicatorY, this`animationsStarted, this`scrollRequests
      ensures Valid()
      ensures pager.Some? && pager.value.adapter.None? ==>
        outcome == IllegalArgumentException("ViewPager does not have a PagerAdapter set") &&
        pagerBound == old(pagerBound) && hasListener == old(hasListener) && tabs == old(tabs) && selected == old(selected) &&
        events == old(events) && indicatorY == old(indicatorY) &&
        animationsStarted == old(animationsStarted) && scrollRequests == old(scrollRequests)
      ensures pager.None? ==>
        outcome == Done && !pagerBound && !hasListener && tabs == [] && selected == None &&
        events == old(events) && indicatorY == old(indicatorY) &&
        animationsStarted == old(animationsStarted) && scrollRequests == old(scrollRequests)
      ensures pager.Some? && pager.value.adapter.Some? ==>
        var views := pager.value.adapter.value;
        outcome == Done && pagerBound && hasListener &&
        tabs == Populated(views, tabMode, tabHeight, tabMargin, true, pager.value.currentItem) &&
        selected == PopulateSelection(|views|, true, pager.value.currentItem) &&
        indicatorY == old(indicatorY) && animationsStarted == old(animationsStarted) &&
        if PopulateMoves(|views|, true, pager.value.currentItem) then
          events == old(events) + HandlerEvents(true, pager.value.currentItem, true) &&
          scrollRequests == old(scrollRequests) + [pager.value.currentItem]
        else
          events == old(events) && scrollRequests == old(scrollRequests)
    {
      if pager.Some? {
        if pager.value.adapter.None? {
          return IllegalArgumentException("ViewPager does not have a PagerAdapter set");
        }
        pagerBound := true;
        SetOnTabSelectedListener(true);
        PopulateFromPagerAdapter(pager.value.adapter, pager.value.currentItem);
      } else {
        pagerBound := false;
        SetOnTabSelectedListener(false);
        PopulateFromPagerAdapter(None, 0);
      }
      outcome := Done;
    }
  }
}

=== FILE: tab_rules.dfy ===
/** The tab list of VerticalTabLayout: what each tab carries, how the two tab
    modes lay a tab out, and the single-selection invariant of the strip. */
module TabRules {

  datatype Option<T> = None | Some(value: T)

  /** The widget's public tab-mode constants. */
  const TabModeFixed: int := 10
  const TabModeScrollable: int := 11

  /** Android's LayoutParams.WRAP_CONTENT, the height a fresh tab's params start with. */
  const WrapContent: int := -2

  predicate ValidMode(mode: int)
  {
    mode == TabModeFixed || mode == TabModeScrollable
  }

  /** The part of a tab's LinearLayout.LayoutParams the widget writes. The width is
      always MATCH_PARENT and the left, right and bottom margins are always 0. */
  datatype LayoutParams = LayoutParams(height: int, weight: real, topMargin: int)

  /** The params addTabWithMode creates before the mode is applied. */
  const FreshParams := LayoutParams(WrapContent, 0.0, 0)

  /** Opaque handle for a tab view's display content (icon, title, badge, background). */
  type TabView = nat

  /** One child of the tab strip: its content, its checked flag and its layout params. */
  datatype Tab = Tab(view: TabView, checked: bool, params: LayoutParams)

  /** A call on the OnTabSelectedListener. */
  datatype Event = TabSelected(position: nat) | TabReselected(position: nat)

  /** initTabWithMode: the mode's params; any other mode value leaves the params as they are. */
  function InitTabWithMode(p: LayoutParams, mode: int, tabHeight: int, tabMargin: int): LayoutParams
  {
    if mode == TabModeFixed then LayoutParams(0, 1.0, 0)
    else if mode == TabModeScrollable then LayoutParams(tabHeight, 0.0, tabMargin)
    else p
  }

  /** The params of the tab at `index` once the mode is applied to `p`: the first tab's
      top margin is forced to 0. */
  function ModeParams(p: LayoutParams, index: nat, mode: int, tabHeight: int, tabMargin: int): (r: LayoutParams)
    ensures index == 0 ==> r.topMargin == 0
  {
    var q := InitTabWithMode(p, mode, tabHeight, tabMargin);
    if index == 0 then q.(topMargin := 0) else q
  }

  /** For a valid mode, applying it overwrites every field the old params had. */
  lemma ModeParamsForgetOld(p: LayoutParams, index: nat, mode: int, tabHeight: int, tabMargin: int)
    requires ValidMode(mode)
    ensures ModeParams(p, index, mode, tabHeight, tabMargin) == ParamsFor(index, mode, tabHeight, tabMargin)
  {
  }

  /** The params of the tab at `index` in a strip laid out under the given configuration. */
  function ParamsFor(index: nat, mode: int, tabHeight: int, tabMargin: int): (r: LayoutParams)
    ensures mode == TabModeFixed ==> r == LayoutParams(0, 1.0, 0)
    ensures mode == TabModeScrollable ==> r == LayoutParams(tabHeight, 0.0, if index == 0 then 0 else tabMargin)
  {
    ModeParams(FreshParams, index, mode, tabHeight, tabMargin)
  }

  /** Every tab carries the params its index and the configuration call for. */
  predicate LaidOut(tabs: seq<Tab>, mode: int, tabHeight: int, tabMargin: int)
  {
    forall i | 0 <= i < |tabs| :: tabs[i].params == ParamsFor(i, mode, tabHeight, tabMargin)
  }

  /** `selected` is the one checked tab; there is one exactly when the strip is non-empty. */
  predicate SingleChecked(tabs: seq<Tab>, selected: Option<nat>)
  {
    (selected.None? <==> |tabs| == 0) &&
    (selected.Some? ==> selected.value < |tabs|) &&
    forall i | 0 <= i < |tabs| :: tabs[i].checked <==> selected == Some(i)
  }

  function CheckedCount(tabs: seq<Tab>): nat
  {
    if tabs == [] then 0 else (if tabs[0].checked then 1 else 0) + CheckedCount(tabs[1..])
  }

  lemma {:induction false} OneHotCount(tabs: seq<Tab>, j: int)
    requires forall i | 0 <= i < |tabs| :: tabs[i].checked <==> i == j
    ensures CheckedCount(tabs) == if 0 <= j < |tabs| then 1 else 0
    decreases |tabs|
  {
    if tabs != [] {
      var rest := tabs[1..];
      forall i | 0 <= i < |rest| ensures rest[i].checked <==> i == j - 1 {
        assert rest[i] == tabs[i + 1];
      }
      OneHotCount(rest, j - 1);
    }
  }

  /** The selection invariant means exactly one checked tab in a non-empty strip. */
  lemma ExactlyOneChecked(tabs: seq<Tab>, selected: Option<nat>)
    requires SingleChecked(tabs, selected)
    ensures CheckedCount(tabs) == if |tabs| == 0 then 0 else 1
  {
    OneHotCount(tabs, if selected.Some? then selected.value else -1);
  }

  lemma {:induction false} NoneChecked(tabs: seq<Tab>)
    requires CheckedCount(tabs) == 0
    ensures forall i | 0 <= i < |tabs| :: !tabs[i].checked
    decreases |tabs|
  {
    if tabs != [] {
      NoneChecked(tabs[1..]);
      forall i | 1 <= i < |tabs| ensures !tabs[i].checked {
        assert tabs[i] == tabs[1..][i - 1];
      }
    }
  }

  /** Conversely, a strip with exactly one checked tab satisfies the selection invariant
      for the index of that tab. */
  lemma {:induction false} CheckedOnceIsSelection(tabs: seq<Tab>)
    requires CheckedCount(tabs) == 1
    ensures exists j :: 0 <= j < |tabs| && SingleChecked(tabs, Some(j))
    decreases |tabs|
  {
    var rest := tabs[1..];
    if tabs[0].checked {
      NoneChecked(rest);
      forall i | 1 <= i < |tabs| ensures !tabs[i].checked {
        assert tabs[i] == rest[i - 1];
      }
      assert SingleChecked(tabs, Some(0));
    } else {
      CheckedOnceIsSelection(rest);
      var j :| 0 <= j < |rest| && SingleChecked(rest, Some(j));
      forall i | 1 <= i < |tabs| ensures tabs[i].checked <==> i == j + 1 {
        assert tabs[i] == rest[i - 1];
      }
      assert SingleChecked(tabs, Some(j + 1));
    }
  }

  /** setTabSelected's flag update: uncheck the tab at `from`, check the tab at `to`. */
  function Reselect(tabs: seq<Tab>, from: nat, to: nat): (r: seq<Tab>)
    requires from < |tabs| && to < |tabs|
    ensures |r| == |tabs|
    ensures forall i | 0 <= i < |tabs| :: r[i].view == tabs[i].view && r[i].params == tabs[i].params
  {
    tabs[from := tabs[from].(checked := false)][to := tabs[to].(checked := true)]
  }

  /** Moving the selection keeps exactly one checked tab, now the target. */
  lemma ReselectMovesCheck(tabs: seq<Tab>, from: nat, to: nat)
    requires SingleChecked(tabs, Some(from)) && to < |tabs|
    ensures SingleChecked(Reselect(tabs, from, to), Some(to))
  {
  }

  /** Reselecting the already selected tab changes nothing. */
  lemma ReselectSameIsIdentity(tabs: seq<Tab>, p: nat)
    requires SingleChecked(tabs, Some(p))
    ensures Reselect(tabs, p, p) == tabs
  {
  }

  /** Changing only layout params keeps the selection invariant. */
  lemma SameChecksKeepSelection(a: seq<Tab>, b: seq<Tab>, selected: Option<nat>)
    requires SingleChecked(a, selected) && |a| == |b|
    requires forall i | 0 <= i < |a| :: a[i].checked == b[i].checked
    ensures SingleChecked(b, selected)
  {
  }

  /** addTabWithMode: the new tab takes the mode's params; the first tab of the strip is
      checked and flush with the top. A new tab view starts unchecked. */
  function Appended(tabs: seq<Tab>, view: TabView, mode: int, tabHeight: int, tabMargin: int): (r: seq<Tab>)
    ensures |r| == |tabs| + 1 && r[..|tabs|] == tabs
    ensures r[|tabs|].view == view && r[|tabs|].params == ParamsFor(|tabs|, mode, tabHeight, tabMargin)
    ensures r[|tabs|].checked <==> tabs == []
  {
    tabs + [Tab(view, |tabs| == 0, ModeParams(FreshParams, |tabs|, mode, tabHeight, tabMargin))]
  }

  /** Adding a tab keeps both invariants; the first tab becomes the selection. */
  lemma AppendedKeepsInvariants(tabs: seq<Tab>, selected: Option<nat>, view: TabView,
                                mode: int, tabHeight: int, tabMargin: int)
    requires SingleChecked(tabs, selected) && LaidOut(tabs, mode, tabHeight, tabMargin)
    ensures var r := Appended(tabs, view, mode, tabHeight, tabMargin);
      SingleChecked(r, if tabs == [] then Some(0) else selected) &&
      LaidOut(r, mode, tabHeight, tabMargin)
  {
    var r := Appended(tabs, view, mode, tabHeight, tabMargin);
    forall i | 0 <= i < |tabs| ensures r[i] == tabs[i] {
      assert r[..|tabs|][i] == r[i];
    }
  }

  /** The strip after adding `views` one by one to an empty strip. */
  function Built(views: seq<TabView>, mode: int, tabHeight: int, tabMargin: int): seq<Tab>
    decreases |views|
  {
    if views == [] then []
    else Appended(Built(views[..|views| - 1], mode, tabHeight, tabMargin), views[|views| - 1], mode, tabHeight, tabMargin)
  }

  /** Building from an empty strip: one tab per view in order, the first one checked and
      selected, every tab laid out for the mode (so the first has top margin 0). */
  lemma {:induction false} BuiltStrip(views: seq<TabView>, mode: int, tabHeight: int, tabMargin: int)
    ensures var r := Built(views, mode, tabHeight, tabMargin);
      |r| == |views| &&
      (forall i | 0 <= i < |r| :: r[i].view == views[i]) &&
      SingleChecked(r, if views == [] then None else Some(0)) &&
      LaidOut(r, mode, tabHeight, tabMargin)
    decreases |views|
  {
    if views != [] {
      var front := views[..|views| - 1];
      BuiltStrip(front, mode, tabHeight, tabMargin);
      var b := Built(front, mode, tabHeight, tabMargin);
      AppendedKeepsInvariants(b, if front == [] then None else Some(0), views[|views| - 1], mode, tabHeight, tabMargin);
      var r := Built(views, mode, tabHeight, tabMargin);
      forall i | 0 <= i < |r| ensures r[i].view == views[i] {
        if i < |b| {
          assert r[i] == r[..|b|][i] == b[i];
          assert views[i] == front[i];
        }
      }
    }
  }

  /** The strip after populateFromPagerAdapter: built from the adapter, then moved to the
      pager's current item when a pager is bound and that item is another existing tab. */
  function Populated(views: seq<TabView>, mode: int, tabHeight: int, tabMargin: int,
                     pagerBound: bool, currentItem: nat): seq<Tab>
  {
    var b := Built(views, mode, tabHeight, tabMargin);
    BuiltStrip(views, mode, tabHeight, tabMargin);
    if PopulateMoves(|views|, pagerBound, currentItem) then Reselect(b, 0, currentItem) else b
  }

  /** Whether populating ends with a setTabSelected call. */
  predicate PopulateMoves(count: nat, pagerBound: bool, currentItem: nat)
  {
    pagerBound && count > 0 && currentItem != 0 && currentItem < count
  }

  /** The selection populating ends with: the bound pager's current item when it names a tab,
      the first tab otherwise, none for an empty adapter. */
  function PopulateSelection(count: nat, pagerBound: bool, currentItem: nat): (r: Option<nat>)
    ensures r.None? <==> count == 0
    ensures r.Some? ==> r.value < count
    ensures pagerBound && currentItem < count ==> r == Some(currentItem)
    ensures count > 0 && !(pagerBound && currentItem < count) ==> r == Some(0)
  {
    if count == 0 then None
    else if pagerBound && currentItem < count then Some(currentItem)
    else Some(0)
  }

  /** Rebuilding ends with exactly one selection, consistent with a bound pager. */
  lemma PopulatedStrip(views: seq<TabView>, mode: int, tabHeight: int, tabMargin: int,
                       pagerBound: bool, currentItem: nat)
    ensures var r := Populated(views, mode, tabHeight, tabMargin, pagerBound, currentItem);
      |r| == |views| &&
      (forall i | 0 <= i < |r| :: r[i].view == views[i]) &&
      SingleChecked(r, PopulateSelection(|views|, pagerBound, currentItem)) &&
      LaidOut(r, mode, tabHeight, tabMargin)
  {
    BuiltStrip(views, mode, tabHeight, tabMargin);
    if PopulateMoves(|views|, pagerBound, currentItem) {
      ReselectMovesCheck(Built(views, mode, tabHeight, tabMargin), 0, currentItem);
    }
  }

  /** setTabMode's loop: every tab gets initTabWithMode applied to its params, and the first
      tab's top margin is forced to 0. Contents and checked flags stay. */
  function ModeRewrite(tabs: seq<Tab>, mode: int, tabHeight: int, tabMargin: int): (r: seq<Tab>)
    ensures |r| == |tabs|
    ensures forall i | 0 <= i < |tabs| :: r[i].view == tabs[i].view && r[i].checked == tabs[i].checked
    ensures ValidMode(mode) ==> LaidOut(r, mode, tabHeight, tabMargin)
  {
    seq(|tabs|, i requires 0 <= i < |tabs| => tabs[i].(params := ModeParams(tabs[i].params, i, mode, tabHeight, tabMargin)))
  }

  /** The kept margin and height are reused: leaving a mode and coming back restores a
      laid-out strip exactly. */
  lemma ModeRoundTrip(tabs: seq<Tab>, mode: int, other: int, tabHeight: int, tabMargin: int)
    requires ValidMode(mode) && LaidOut(tabs, mode, tabHeight, tabMargin)
    ensures ModeRewrite(ModeRewrite(tabs, other, tabHeight, tabMargin), mode, tabHeight, tabMargin) == tabs
  {
    var r := ModeRewrite(ModeRewrite(tabs, other, tabHeight, tabMargin), mode, tabHeight, tabMargin);
    forall i | 0 <= i < |tabs| ensures r[i] == tabs[i] {
      ModeParamsForgetOld(ModeRewrite(tabs, other, tabHeight, tabMargin)[i].params, i, mode, tabHeight, tabMargin);
    }
  }

  /** setTabMargin's loop: first tab margin 0, every other tab the new margin. */
  function MarginRewrite(tabs: seq<Tab>, margin: int): (r: seq<Tab>)
    ensures |r| == |tabs|
    ensures forall i | 0 <= i < |tabs| ::
      r[i].view == tabs[i].view && r[i].checked == tabs[i].checked &&
      r[i].params.height == tabs[i].params.height && r[i].params.weight == tabs[i].params.weight
  {
    seq(|tabs|, i requires 0 <= i < |tabs| =>
      tabs[i].(params := tabs[i].params.(topMargin := if i == 0 then 0 else margin)))
  }

  /** In scrollable mode, the margin rewrite lays the strip out for the new margin. */
  lemma MarginRewriteRelays(tabs: seq<Tab>, tabHeight: int, oldMargin: int, margin: int)
    requires LaidOut(tabs, TabModeScrollable, tabHeight, oldMargin)
    ensures LaidOut(MarginRewrite(tabs, margin), TabModeScrollable, tabHeight, margin)
  {
  }

  /** setTabHeight's loop: every tab gets the new height. */
  function HeightRewrite(tabs: seq<Tab>, height: int): (r: seq<Tab>)
    ensures |r| == |tabs|
    ensures forall i | 0 <= i < |tabs| ::
      r[i].view == tabs[i].view && r[i].checked == tabs[i].checked &&
      r[i].params.weight == tabs[i].params.weight && r[i].params.topMargin == tabs[i].params.topMargin
  {
    seq(|tabs|, i requires 0 <= i < |tabs| => tabs[i].(params := tabs[i].params.(height := height)))
  }

  /** In scrollable mode, the height rewrite lays the strip out for the new height. */
  lemma HeightRewriteRelays(tabs: seq<Tab>, oldHeight: int, height: int, tabMargin: int)
    requires LaidOut(tabs, TabModeScrollable, oldHeight, tabMargin)
    ensures LaidOut(HeightRewrite(tabs, height), TabModeScrollable, height, tabMargin)
  {
  }

  /** In fixed mode the stored margin and height do not enter the layout. */
  lemma FixedIgnoresStoredValues(tabs: seq<Tab>, tabHeight: int, tabMargin: int, height: int, margin: int)
    requires LaidOut(tabs, TabModeFixed, tabHeight, tabMargin)
    ensures LaidOut(tabs, TabModeFixed, height, margin)
    ensures forall i | 0 <= i < |tabs| :: tabs[i].params == LayoutParams(0, 1.0, 0)
  {
  }
}
